=== FILE: README.md ===
# Object storage coordinator — a Dafny model

This project models the core of a small Go object-storage service. Clients upload, fetch and delete files.
Each file's bytes live as one file per generated uuid in a storage folder (the *blob store*). A row
`(uuid, fileName)` in a Postgres table `meta` holds its metadata (the *metadata store*). The model covers:

- the **storage coordinator** (`pkg/storage/storage.go`): `WriteFile`, `GetFile` and `DeleteFile` as pure
  transitions on a state `(blobs, rows)`. `blobs` maps a uuid to its bytes; `rows` is the metadata table in
  scan order.
- the **metadata store** (`base/pg.go`): insert, lookup by key, delete by key, the LIMIT/OFFSET listing,
  the CREATE TABLE statements of `Init`, and `GetTableFromLabel`. The column rendering of `base/types.go`
  is included.
- the **error taxonomy** (`util/errors.go`): one tagged variant `Error(kind, message)` stands in for the
  eleven Go error types. `ErrorIs` compares kinds.
- the **endpoint layer** (`pkg/storage/endpoints/endpoints.go`): each endpoint closure is a map from a
  service result to a `(code, message, payload)` response.

External inputs:

- The fresh uuid that `uuid.New()` would draw is a parameter.
- Every filesystem call (`os.Stat`, `os.Create`, `io.Copy`, `ioutil.ReadFile`, `os.Remove`) takes a
  `Fault` input: it either succeeds or fails with an error text.
- Every database round trip (query, row scan, `rows.Err()`, `Exec`, `RowsAffected()`) takes a `Fault` input
  in the same way.
- A failing `io.Copy` also says how many bytes it wrote before failing.
- The lookup/delete `key` is the closed enum `{UuidKey, FileNameKey}`, not a raw SQL fragment.

Files: `results.dfy` (Option, Result, Fault), `strings.dfy` (prefix/suffix, join, decimal rendering),
`errors.dfy`, `schema.dfy`, `metadata.dfy`, `storage.dfy`, `endpoints.dfy`.

Behaviours of the code that a reader might not expect, all modelled as written:

- The write conflict check looks for a file at the blob path `storageFolder/uuid`, not for an existing
  logical name. Two files with the same name are both accepted (`Storage.SameNameTwice`).
- `os.Stat` failing with an error other than "does not exist" falls into the conflict branch, so
  `WriteFile` answers 409 "file already exists". In `GetFile` and `DeleteFile` the same case proceeds to
  the read or removal.
- `GetFile` and `DeleteFile` consult only the blob store. `DeleteFile` never removes the metadata row, so a
  successful delete leaves an orphan row (`Storage.DeleteLeavesOrphanRow`).
- A failing copy leaves the partly written blob at the path; nothing removes it (`Storage.WriteFileBlobFailure`).
- An INSERT that ran but whose `RowsAffected()` fails is reported as an error, so `WriteFile` answers 500
  although the blob and the row are both written; the caller never receives the id
  (`Storage.WriteFileUnconfirmedInsert`).
- The store's paged scan returns raw driver errors, and the listing endpoint maps only a value-equal
  `InternalServerError{}` to 500. So a store failure answers 200 "Ok" with an empty list
  (`Endpoints.ListFilesOverStore`).
- The listing query has no `ORDER BY`, so its order is whatever the engine scans; the model takes the
  table's scan order as the row sequence's order and puts every inserted row at its end. A Postgres heap
  insert can reuse free space left by deletes, so in the engine "the last match in scan order"
  (`MetadataStore.RetrieveLastMatch`) need not be the latest insert.

Code that is inconsistent because it was caught mid-refactor:

- `storage.go` builds `ResponseError{StatusCode, Err}` while `util/errors.go` declares
  `ResponseError{StatusCode, Message}`. The model stores the error text as the message, which is what
  `Error()` returns.
- `RetrieveMetadata` returns the type name `NotFoundError` as a value. The model returns the NotFound kind
  with an empty message.
- The endpoints assert `err.(*util.ResponseError)`, which panics on any other error type. The
  service-backed endpoint functions therefore require a `ResponseError`.

## Model

| member | source | states |
|---|---|---|
| Errors.Render | util/errors.go:10-76 | A ResponseError renders as its message alone; a typed error renders as a non-empty text that ends with its message |
| Errors.PrefixFree | util/errors.go:22-76 | No typed error's prefix is a prefix of another typed error's rendering |
| Errors.RenderParseRoundTrip | util/errors.go:22-76 | Kind and message of any typed error can be read back from its `Error()` string |
| Errors.RenderInjective | util/errors.go:22-76 | Two typed errors with the same `Error()` string are the same error |
| Errors.ErrorIs | util/errors.go:81-83 | Two errors of the same kind always match, and matching errors render with the same prefix |
| Errors.ErrorIsByPrefix | util/errors.go:81-83 | `ErrorIs(a, b)` holds exactly when both kinds render with the same prefix: same kind, messages and status codes ignored |
| Errors.ErrorIsEquivalence | util/errors.go:81-83 | `ErrorIs` is reflexive, symmetric and transitive, and changing either message does not change it |
| Schema.NewColumn | base/types.go:16-24 | The four arguments are stored unchanged in the matching fields |
| Schema.ToString | base/types.go:26-36 | A column renders as its head `name + " " + dataType` followed by exactly the clauses its flags ask for: the length grows by " PRIMARY KEY" iff key and by " NOT NULL" iff not null |
| Schema.ToStringClauses | base/types.go:26-36 | A column renders as `name + " " + dataType` first; after that head the text starts with " PRIMARY KEY" iff the column is a key, ends with " NOT NULL" iff it is not null, and puts the key clause first when both apply |
| Schema.ColumnFlagsRecoverable | base/types.go:26-36 | Two columns with the same name, type and rendering have the same flags |
| Schema.BuildCreateStatement | base/pg.go:97-104 | The comma-before-every-column-but-the-first loop builds "CREATE TABLE IF NOT EXISTS name (" + the column texts joined by "," + ")" |
| Schema.Init | base/pg.go:93-112 | One CREATE statement per table in declared order; stops at the first failing table and returns its error; no error means a statement was issued for every table and none failed |
| Schema.GetTableFromLabel | base/pg.go:241-250 | The argument is ignored; the result is the last table whose "content" label is "metadata", or "" when none is |
| Schema.MetadataTableIsMeta | base/pg.go:24-45 | For the declared tables the metadata table is "meta", whatever label is asked for |
| Schema.MetaColumnsRender | base/pg.go:27-30 | The meta columns render as "uuid uuid PRIMARY KEY" and "fileName varchar(255) NOT NULL" |
| Schema.MetaCreateStatement | base/pg.go:95-105 | The statement for `meta` is "CREATE TABLE IF NOT EXISTS meta (uuid uuid PRIMARY KEY,fileName varchar(255) NOT NULL)" |
| MetadataStore.InsertMetadata | base/pg.go:129-146 | Success iff every call succeeds and the uuid is new; it then appends exactly (uuid, fileName). A failing statement or a repeated uuid changes nothing. When the statement runs for a new uuid the row is appended even if `RowsAffected()` then fails, and that failure is the reported error. Unique uuids stay unique |
| MetadataStore.InsertAddsExactlyOne | base/pg_test.go:56-94 | After a successful insert exactly one row has the inserted uuid and file name |
| MetadataStore.InsertThenRetrieve | base/pg.go:129-180 | A lookup by uuid after a successful insert returns the inserted row |
| MetadataStore.RetrieveMetadata | base/pg.go:148-180 | A found row is in the table, matches the key and is not the zero row; success implies the query and iteration succeeded; a failing query, or a failing scan of any matching row, is returned as that driver error |
| MetadataStore.RetrieveMissing | base/pg.go:174-177 | With no matching row the lookup fails with the NotFound kind |
| MetadataStore.RetrieveLastMatch | base/pg.go:161-177 | With several matches the lookup returns the last in scan order; a zero last match is reported as NotFound |
| MetadataStore.DeleteMetadata | base/pg.go:182-203 | Whenever the statement succeeds at the database, every matching row is removed, even when an error is then reported; success iff `RowsAffected()` works and exactly one row was removed; with a working `RowsAffected()`, none removed is BadRequest "file <v>does not exist." and more than one is InternalServer; a failing `RowsAffected()` is InternalServer with the driver's text; a failing statement changes nothing |
| MetadataStore.UniqueSelect | base/pg.go:28 | With the uuid PRIMARY KEY, a lookup by uuid matches at most one row |
| MetadataStore.DeleteByUuid | base/pg.go:182-203 | Deleting a present uuid succeeds, removes one row, and a later lookup reports NotFound |
| MetadataStore.ListAllPaged | base/pg.go:205-232 | Without a fault the page is the slice of rows from min(offset, n) holding at most limit rows; any query, scan or iteration fault gives an empty slice and a driver error |
| MetadataStore.PageBounds | base/pg.go:210 | A page holds at most limit rows; limit 0 or an offset past the end gives none; a full page has exactly limit rows |
| MetadataStore.PagesCoverTable | base/pg.go:205-232 | Pages of size N taken at offsets 0, N, 2N, ... concatenate to the whole table, with no gap and no duplicate |
| Storage.StatBlob | pkg/storage/storage.go:36 | Stat answers "does not exist" exactly when no blob is at the path and no fault is injected |
| Storage.WriteFile | pkg/storage/storage.go:29-83 | Every error is a ResponseError with code 409 or 500; success returns the given id, stores the content under it and appends exactly (id, name); other blobs never change |
| Storage.WriteFileSucceeds | pkg/storage/storage.go:32-82 | A write succeeds exactly when no blob is at the path, every call succeeds and the uuid has no row yet |
| Storage.WriteFileConflict | pkg/storage/storage.go:75-81 | A blob at the path or a failing stat gives 409 "file already exists" with no id and no change to either store |
| Storage.WriteFileBlobFailure | pkg/storage/storage.go:38-55 | A failing create or copy gives 500 and no new row; after a failing copy the path holds a prefix of the content |
| Storage.WriteFileOrphanBlob | pkg/storage/storage.go:60-71 | A failing INSERT statement gives 500 but the whole blob stays written with no row for it |
| Storage.WriteFileUnconfirmedInsert | pkg/storage/storage.go:60-71 | When the INSERT runs for a fresh uuid but `RowsAffected()` fails, the write answers 500 although the blob holds the content and the row (id, name) is appended |
| Storage.WriteThenGet | pkg/storage/storage.go:96-105 | After a successful write, reading the returned id yields the same bytes and changes nothing |
| Storage.GetFile | pkg/storage/storage.go:85-106 | A read never changes the state; success returns exactly the stored bytes; errors are 404 or 500 |
| Storage.GetFileMissing | pkg/storage/storage.go:88-95 | With no blob at the path and a working stat the read is a 404, whatever the rows hold |
| Storage.GetFileIgnoresRows | pkg/storage/storage.go:85-106 | The result of a read depends on the blob store only |
| Storage.DeleteFile | pkg/storage/storage.go:108-128 | Rows never change; success removes exactly that blob; every error is 404 or 500 and leaves the state as it was |
| Storage.DeleteFileFailures | pkg/storage/storage.go:112-125 | No blob and a working stat give 404; a failing removal gives 500 with the blob kept; success iff a blob is there and removal succeeds |
| Storage.DeleteThenGet | pkg/storage/storage.go:119-127 | A successful delete removes only that blob, keeps the rows, and a later read is a 404 |
| Storage.WriteOnce | pkg/storage/storage.go:36 | Writing an id again after a successful write is a 409 that changes nothing |
| Storage.WritePreservesConsistency | pkg/storage/storage.go:58-73 | A successful write keeps "every blob has a row and every row a blob" |
| Storage.DeleteLeavesOrphanRow | pkg/storage/storage.go:108-128 | A successful delete of a file with a row breaks that invariant: the row outlives its blob |
| Storage.SameNameTwice | pkg/storage/storage.go:32-36 | Two writes with the same file name under fresh ids both succeed: names are never checked |
| Storage.SameNameScenario | pkg/storage/storage.go:29-128 | Write "a.txt" as u1, read it back, write another "a.txt" as u2 (accepted), delete u1: the read of u1 is then a 404 and both rows remain |
| Endpoints.Healtz | pkg/storage/endpoints/endpoints.go:44-48 | Always answers 200 "Alive!" with no payload |
| Endpoints.NotFound | pkg/storage/endpoints/endpoints.go:50-56 | Always answers 404; the message is "Not found: " followed by exactly the requested endpoint |
| Endpoints.MethodNotAllowed | pkg/storage/endpoints/endpoints.go:58-64 | Always answers 415; the message is "Method not allowed: " followed by exactly the request method |
| Endpoints.ListFiles | pkg/storage/endpoints/endpoints.go:66-78 | 400 iff the body could not be read, with "Could not read body: " + the decoding error and an empty uuid; 500 iff the error equals the zero InternalServerError, with nil files and the error's text; otherwise 200 "Ok" with the files, even when another error occurred |
| Endpoints.WriteFile | pkg/storage/endpoints/endpoints.go:80-91 | Success gives 201 "File created" with the id; an error gives its status code and message with an empty id |
| Endpoints.GetFile | pkg/storage/endpoints/endpoints.go:93-103 | Success gives 200 "File retrieved" with the bytes; an error gives its status code and message with nil bytes |
| Endpoints.DeleteFile | pkg/storage/endpoints/endpoints.go:105-115 | Success gives 200 "File deleted"; an error gives its status code and message |
| Endpoints.AddBucket | pkg/storage/endpoints/endpoints.go:117-122 | A stub that always answers 200 "Bucket created" with no payload |
| Endpoints.LogLevel | pkg/storage/endpoints/endpoints.go:124-134 | Success gives 200 "Logging level for layer <layer> changed to <level>"; an error gives its status code and message; no payload either way |
| Endpoints.WriteEndpointOverCoordinator | pkg/storage/endpoints/endpoints.go:80-91 | Over the coordinator a POST is 201 with the id iff the write succeeds, 409 iff a blob is at the path or stat fails, else 500 with an empty id |
| Endpoints.GetEndpointOverCoordinator | pkg/storage/endpoints/endpoints.go:93-103 | Over the coordinator a GET is 200 with the stored bytes iff a blob exists and the read succeeds, 404 for a missing blob, else 500 with nil bytes |
| Endpoints.DeleteEndpointOverCoordinator | pkg/storage/endpoints/endpoints.go:105-115 | Over the coordinator a DELETE is 200 iff the blob exists and its removal succeeds, 404 for a missing blob, 500 for a failing removal |
| Endpoints.ListFilesOverStore | pkg/storage/endpoints/endpoints.go:66-78 | Over the paged scan the listing answers 200 with the page when nothing fails, and 200 with an empty list when the store fails |

## Left out

- Process wiring (`main.go`, `cmd/storage.go`): configuration, database connection and retry, signals and
  the listener. None of it decides an outcome of the core.
- HTTP framing (`pkg/storage/transport/http.go`): routing, multipart decoding and JSON encoding.
- Logging (`pkg/storage/middlewares.go`, `util/logs.go`) and the per-layer log level. The service's
  `SetLogLevel` has no body in `storage.go`; `Endpoints.LogLevel` takes its result as an input.
- The service's `ListFiles` has no body in `storage.go`. `Endpoints.ListFiles` takes its result as an input,
  and `Endpoints.ListFilesOverStore` assumes it passes the paged scan's answer through.
- `base/sql.go` (an older duplicate of the store), `base/base.go` (empty stubs), and the interface
  declarations in `base/db.go`, `pkg/storage/service.go` and `pkg/storage/endpoints/reqJSONmap.go`. These
  declarations are used only for shapes.
- SQL execution. The table is a row sequence, and of the engine's checks only the uniqueness of the
  PRIMARY KEY is modelled, on exact strings. The model does not check uuid syntax or the 255-character
  limit on `fileName`.
- MetadataStore.InsertMetadata, MetadataStore.RetrieveMetadata, MetadataStore.DeleteMetadata and
  MetadataStore.InsertThenRetrieve: uuids are compared and stored as exact strings. The column's Postgres
  `uuid` type compares parsed values and returns the canonical lower-case form, so an upper-case spelling
  of a stored uuid is a duplicate key, a hit and a delete target in the engine but a different key in the
  model. The model matches the code only for canonical uuids, which is all the coordinator passes
  (`uuid.New().String()`, `pkg/storage/storage.go:32`).
- The string-concatenated `key` of the lookup and delete statements. The model's key is an enum, so no
  injection path exists.
- `tearDown`, `Connect`, `Close`, `Exec` and `Query`: driver plumbing whose failures are the fault inputs.
- Real filesystem I/O and `uuid.New()` randomness. The blob store is a map and the uuid a parameter. The
  storage folder is dropped from paths, so "no such file or directory" texts name the uuid alone, and Go's
  exact `*os.PathError` wording is only approximated.
- Storage.WriteFile: the file handle closed by `defer newFile.Close()` is not modelled; a failing close is
  ignored by the code.
- MetadataStore.ListAllPaged: `limit` and `offset` are unbounded naturals rather than Go's 64-bit `uint`;
  values above the database's integer range are not modelled.
- MetadataStore.RetrieveMetadata: a failing scan is modelled by the position of the first returned row whose
  scan fails.
- Storage.GetFile: ids are treated as plain file names under the storage folder. `filepath.Join` cleans the
  path, so ids such as ".", ".." or "x/../y" would name the folder, its parent or another blob; that aliasing
  is not modelled. The router (gorilla/mux, `pkg/storage/transport/http.go`) cleans request paths and its
  `{id}` variable stops at "/", so such ids do not reach the service over HTTP.
- Storage.DeleteFile: the same plain-name treatment of ids; removing "." (an empty storage folder itself)
  or a blob reached through ".." is not modelled.
- Errors.ErrorIs: Go compares `reflect.TypeOf` of any two errors. The model compares kinds of the eleven
  service error types only, and collapses the pointer/value distinction: in Go `BadRequestError{}` and
  `&BadRequestError{}` do not match, two `errors.New` values match, and `ErrorIs(nil, nil)` holds; none of
  these cases is modelled.
- `context.Context` and concurrency: no outcome of the core depends on them.

=== FILE: endpoints.dfy ===
/** The endpoint layer of pkg/storage/endpoints/endpoints.go: each `Make*`
    closure as a pure map from a request or a service result to a response
    `(code, message, payload)`. No endpoint has an error channel: every
    outcome is a response code. */
module Endpoints {
  import opened Results
  import Errors
  import MetadataStore
  import Storage
  import opened Strings

  /** The third field of the Go response structs that carry one. `nil` is
      `None`. */
  datatype Payload =
    | NoPayload
    | UuidField(uuid: string)
    | FileField(file: Option<Storage.Bytes>)
    | FilesField(files: Option<seq<MetadataStore.Row>>)

  datatype Response = Response(code: int, message: string, payload: Payload)

  /** The errors the service-backed endpoints accept: the type assertion
      `err.(*util.ResponseError)` panics on any other. */
  predicate IsResponseError<T>(r: Result<T, Errors.Error>)
  {
    r.Failure? ==> r.error.kind.Response?
  }

  function StatusOf(e: Errors.Error): int
    requires e.kind.Response?
  {
    e.kind.statusCode
  }

  function Healtz(): (r: Response)
    ensures r.code == 200 && r.payload == NoPayload
    ensures r.message == "Alive!"
  {
    Response(200, "Alive!", NoPayload)
  }

  function NotFound(endpoint: string): (r: Response)
    ensures r.code == 404 && r.payload == NoPayload
    ensures IsPrefix("Not found: ", r.message) && r.message[|"Not found: "|..] == endpoint
  {
    Response(404, "Not found: " + endpoint, NoPayload)
  }

  /** Answers with 415, not 405. */
  function MethodNotAllowed(httpMethod: string): (r: Response)
    ensures r.code == 415 && r.payload == NoPayload
    ensures IsPrefix("Method not allowed: ", r.message) && r.message[|"Method not allowed: "|..] == httpMethod
  {
    Response(415, "Method not allowed: " + httpMethod, NoPayload)
  }

  /** `MakeListFilesEndpoint`. `readErr` is the text of a body-decoding
      error. Only an error equal in value to `InternalServerError{}` is a
      500; any other error still answers 200 "Ok" with the files. */
  function ListFiles(readErr: Option<string>, files: seq<MetadataStore.Row>,
                     err: Option<MetadataStore.DbError>): (r: Response)
    ensures r.code == 400 <==> readErr.Some?
    ensures r.code == 500 <==> readErr.None? && err == Some(InternalServerZero)
    ensures r.code == 200 ==> r == Response(200, "Ok", FilesField(Some(files)))
    ensures r.code == 400 ==> r == Response(400, "Could not read body: " + readErr.value, UuidField(""))
    ensures r.code == 500 ==> r.payload == FilesField(None) && r.message == MetadataStore.ErrorText(err.value)
    ensures r.code == 200 || r.code == 400 || r.code == 500
  {
    if readErr.Some? then Response(400, "Could not read body: " + readErr.value, UuidField(""))
    else if err == Some(InternalServerZero) then
      Response(500, MetadataStore.ErrorText(err.value), FilesField(None))
    else Response(200, "Ok", FilesField(Some(files)))
  }

  /** The zero `util.InternalServerError{}` that `errors.Is` compares with. */
  const InternalServerZero := MetadataStore.App(Errors.Error(Errors.InternalServer, ""))

  /** `MakeWriteFileEndpoint`. */
  function WriteFile(result: Result<string, Errors.Error>): (r: Response)
    requires IsResponseError(result)
    ensures result.Success? ==> r == Response(201, "File created", UuidField(result.value))
    ensures result.Failure? ==> r == Response(StatusOf(result.error), result.error.message, UuidField(""))
  {
    match result
    case Success(id) => Response(201, "File created", UuidField(id))
    case Failure(e) => Response(e.kind.statusCode, Errors.Render(e), UuidField(""))
  }

  /** `MakeGetFileEndpoint`. */
  function GetFile(result: Result<Storage.Bytes, Errors.Error>): (r: Response)
    requires IsResponseError(result)
    ensures result.Success? ==> r == Response(200, "File retrieved", FileField(Some(result.value)))
    ensures result.Failure? ==> r == Response(StatusOf(result.error), result.error.message, FileField(None))
  {
    match result
    case Success(bytes) => Response(200, "File retrieved", FileField(Some(bytes)))
    case Failure(e) => Response(e.kind.statusCode, Errors.Render(e), FileField(None))
  }

  /** `MakeDeleteFileEndpoint`. */
  function DeleteFile(result: Result<(), Errors.Error>): (r: Response)
    requires IsResponseError(result)
    ensures result.Success? ==> r == Response(200, "File deleted", NoPayload)
    ensures result.Failure? ==> r == Response(StatusOf(result.error), result.error.message, NoPayload)
  {
    match result
    case Success(_) => Response(200, "File deleted", NoPayload)
    case Failure(e) => Response(e.kind.statusCode, Errors.Render(e), NoPayload)
  }

  /** `MakeAddBucketEndpoint`: a stub that always answers 200. */
  function AddBucket(): (r: Response)
    ensures r.code == 200
    ensures r.message == "Bucket created" && r.payload == NoPayload
  {
    Response(200, "Bucket created", NoPayload)
  }

  /** `MakeLogLevelEndpoint`. */
  function LogLevel(layer: string, level: string, result: Result<(), Errors.Error>): (r: Response)
    requires IsResponseError(result)
    ensures result.Success? ==> r.code == 200
    ensures result.Success? ==> r.message == "Logging level for layer " + layer + " changed to " + level
    ensures r.payload == NoPayload
    ensures result.Failure? ==> r == Response(StatusOf(result.error), result.error.message, NoPayload)
  {
    match result
    case Success(_) => Response(200, "Logging level for layer " + layer + " changed to " + level, NoPayload)
    case Failure(e) => Response(e.kind.statusCode, Errors.Render(e), NoPayload)
  }

  //----------------------------------------------------------------------
  // Endpoints composed with the coordinator
  //----------------------------------------------------------------------

  /** POST a file: 201 with the id exactly when the write succeeds, 409 when
      something is already at the path, 500 when a store call fails; the id
      field is empty on every error. */
  lemma WriteEndpointOverCoordinator(s: Storage.State, id: string, name: string, content: Storage.Bytes,
                                     io: Storage.WriteIo)
    ensures var r := WriteFile(Storage.WriteFile(s, id, name, content, io).result);
            && (r.code == 201 <==> id !in s.blobs && io == Storage.WriteOk && !MetadataStore.HasUuid(s.rows, id))
            && (r.code == 409 <==> id in s.blobs || io.stat.Fails?)
            && (r.code == 201 || r.code == 409 || r.code == 500)
            && (r.payload == UuidField(if r.code == 201 then id else ""))
  {
  }

  /** GET a file: 200 with the stored bytes, 404 with no bytes when no blob
      is at the path, otherwise 500 with no bytes. */
  lemma GetEndpointOverCoordinator(s: Storage.State, id: string, io: Storage.ReadIo)
    ensures var r := GetFile(Storage.GetFile(s, id, io).result);
            && (r.code == 200 <==> id in s.blobs && io.read.Succeeds?)
            && (r.code == 200 ==> r.payload == FileField(Some(s.blobs[id])))
            && (r.code != 200 ==> r.payload == FileField(None))
            && (id !in s.blobs && io.stat.Succeeds? ==> r.code == 404)
            && (r.code == 200 || r.code == 404 || r.code == 500)
  {
  }

  /** DELETE a file: 200 when the blob is removed, 404 when no blob is at the
      path, 500 when the removal fails. */
  lemma DeleteEndpointOverCoordinator(s: Storage.State, id: string, io: Storage.RemoveIo)
    ensures var r := DeleteFile(Storage.DeleteFile(s, id, io).result);
            && (r.code == 200 <==> id in s.blobs && io.remove.Succeeds?)
            && (id !in s.blobs && io.stat.Succeeds? ==> r.code == 404)
            && (id in s.blobs && io.remove.Fails? ==> r.code == 500)
            && (r.code == 200 || r.code == 404 || r.code == 500)
  {
  }

  /** GET /files over the paged scan, the service passing the store's answer
      through. A store failure is a raw driver error, never the zero
      `InternalServerError`, so it answers 200 "Ok" with an empty list. */
  method ListFilesOverStore(rows: seq<MetadataStore.Row>, readErr: Option<string>, limit: nat, offset: nat,
                            io: MetadataStore.QueryIo) returns (r: Response)
    ensures readErr.Some? ==> r.code == 400
    ensures readErr.None? ==> r.code == 200
    ensures readErr.None? && !MetadataStore.PagedScanFails(rows, limit, offset, io)
            ==> r.payload == FilesField(Some(MetadataStore.Page(rows, limit, offset)))
    ensures readErr.None? && MetadataStore.PagedScanFails(rows, limit, offset, io)
            ==> r.payload == FilesField(Some([]))
  {
    if readErr.Some? {
      return ListFiles(readErr, [], None);
    }
    var files, err := MetadataStore.ListAllPaged(rows, limit, offset, io);
    r := ListFiles(readErr, files, err);
  }
}

=== FILE: errors.dfy ===
/** The error taxonomy of util/errors.go: one tagged variant in place of the
    eleven Go error types, compared by kind the way `ErrorIs` compares
    dynamic types. */
module Errors {
  import opened Results
  import opened Strings

  /** `Response` is `*ResponseError`, the only kind that carries a status
      code; the other ten are the typed HTTP errors. */
  datatype Kind =
    | Response(statusCode: int)
    | BadRequest
    | Unauthorized
    | Forbidden
    | NotFound
    | MethodNotAllowed
    | Conflict
    | PayloadTooLarge
    | UnsupportedMediaType
    | InternalServer
    | GatewayTimeout

  datatype Error = Error(kind: Kind, message: string)

  /** The ten typed kinds, in declaration order. */
  const TypedKinds: seq<Kind> := [BadRequest, Unauthorized, Forbidden, NotFound, MethodNotAllowed,
                                   Conflict, PayloadTooLarge, UnsupportedMediaType, InternalServer,
                                   GatewayTimeout]

  /** The fixed text each kind's `Error()` puts before the message. */
  function Prefix(k: Kind): string
  {
    match k
    case Response(_) => ""
    case BadRequest => "Bad request: "
    case Unauthorized => "Unauthorized: "
    case Forbidden => "Forbidden: "
    case NotFound => "Not found: "
    case MethodNotAllowed => "Method not allowed: "
    case Conflict => "Conflict : "
    case PayloadTooLarge => "Payload too large: "
    case UnsupportedMediaType => "Unsupported media type: "
    case InternalServer => "Internal server error: "
    case GatewayTimeout => "Gateway timeout: "
  }

  /** `Error()`: the kind's prefix followed by the message. */
  function Render(e: Error): (s: string)
    ensures IsSuffix(e.message, s)
    ensures e.kind.Response? ==> s == e.message
    ensures !e.kind.Response? ==> |s| > |e.message|
  {
    Prefix(e.kind) + e.message
  }

  /** `ErrorIs`: the two errors have the same dynamic type. Every
      `*ResponseError` has the same type whatever its status code. */
  predicate ErrorIs(a: Error, b: Error)
    ensures a.kind == b.kind ==> ErrorIs(a, b)
    ensures ErrorIs(a, b) ==> Prefix(a.kind) == Prefix(b.kind)
  {
    (a.kind.Response? && b.kind.Response?) || a.kind == b.kind
  }

  /** Recovers a typed error from its rendering by trying each typed kind's
      prefix in turn. */
  function ParseTyped(s: string): (r: Option<Error>)
    ensures r.Some? ==> !r.value.kind.Response? && Render(r.value) == s
  {
    ParseFrom(s, TypedKinds)
  }

  function ParseFrom(s: string, kinds: seq<Kind>): (r: Option<Error>)
    requires forall i :: 0 <= i < |kinds| ==> !kinds[i].Response?
    ensures r.Some? ==> !r.value.kind.Response? && Render(r.value) == s
  {
    if |kinds| == 0 then None
    else if IsPrefix(Prefix(kinds[0]), s) then Some(Error(kinds[0], s[|Prefix(kinds[0])|..]))
    else ParseFrom(s, kinds[1..])
  }

  /** The first three characters of a typed prefix already name its kind. */
  function KindOfHead(h: string): Option<Kind>
  {
    if h == "Bad" then Some(BadRequest)
    else if h == "Una" then Some(Unauthorized)
    else if h == "For" then Some(Forbidden)
    else if h == "Not" then Some(NotFound)
    else if h == "Met" then Some(MethodNotAllowed)
    else if h == "Con" then Some(Conflict)
    else if h == "Pay" then Some(PayloadTooLarge)
    else if h == "Uns" then Some(UnsupportedMediaType)
    else if h == "Int" then Some(InternalServer)
    else if h == "Gat" then Some(GatewayTimeout)
    else None
  }

  lemma HeadNamesKind(k: Kind)
    requires !k.Response?
    ensures |Prefix(k)| >= 3 && KindOfHead(Prefix(k)[..3]) == Some(k)
  {
    var p := Prefix(k);
    match k
    case BadRequest => assert p[..3] == "Bad";
    case Unauthorized => assert p[..3] == "Una";
    case Forbidden => assert p[..3] == "For";
    case NotFound => assert p[..3] == "Not";
    case MethodNotAllowed => assert p[..3] == "Met";
    case Conflict => assert p[..3] == "Con";
    case PayloadTooLarge => assert p[..3] == "Pay";
    case UnsupportedMediaType => assert p[..3] == "Uns";
    case InternalServer => assert p[..3] == "Int";
    case GatewayTimeout => assert p[..3] == "Gat";
  }

  /** The position of a typed kind in `TypedKinds`. */
  function TypedIndex(k: Kind): (i: nat)
    requires !k.Response?
    ensures i < |TypedKinds| && TypedKinds[i] == k
  {
    match k
    case BadRequest => 0
    case Unauthorized => 1
    case Forbidden => 2
    case NotFound => 3
    case MethodNotAllowed => 4
    case Conflict => 5
    case PayloadTooLarge => 6
    case UnsupportedMediaType => 7
    case InternalServer => 8
    case GatewayTimeout => 9
  }

  /** No typed prefix is a prefix of another typed error's rendering, so the
      kind can be read back from any `Error()` string. */
  lemma PrefixFree(a: Kind, b: Kind, m: string)
    requires !a.Response? && !b.Response?
    requires IsPrefix(Prefix(a), Prefix(b) + m)
    ensures a == b
  {
    HeadNamesKind(a);
    HeadNamesKind(b);
    assert Prefix(a)[..3] == (Prefix(b) + m)[..3] == Prefix(b)[..3];
  }

  lemma {:induction false} ParseFromFinds(e: Error, kinds: seq<Kind>, k: nat)
    requires forall i :: 0 <= i < |kinds| ==> !kinds[i].Response?
    requires k < |kinds| && kinds[k] == e.kind
    ensures ParseFrom(Render(e), kinds) == Some(e)
    decreases k
  {
    var s := Render(e);
    if k == 0 {
      assert s[|Prefix(e.kind)|..] == e.message;
    } else if IsPrefix(Prefix(kinds[0]), s) {
      PrefixFree(kinds[0], e.kind, e.message);
    } else {
      ParseFromFinds(e, kinds[1..], k - 1);
    }
  }

  /** Round trip: every typed error's rendering parses back to the same kind
      and message. */
  lemma RenderParseRoundTrip(e: Error)
    requires !e.kind.Response?
    ensures ParseTyped(Render(e)) == Some(e)
  {
    ParseFromFinds(e, TypedKinds, TypedIndex(e.kind));
  }

  /** Distinct typed errors render to distinct strings. */
  lemma RenderInjective(a: Error, b: Error)
    requires !a.kind.Response? && !b.kind.Response?
    requires Render(a) == Render(b)
    ensures a == b
  {
    RenderParseRoundTrip(a);
    RenderParseRoundTrip(b);
  }

  /** `ErrorIs` holds exactly when the two kinds render with the same prefix:
      it looks at the kind alone, never at the message or status code. */
  lemma ErrorIsByPrefix(a: Error, b: Error)
    ensures ErrorIs(a, b) <==> Prefix(a.kind) == Prefix(b.kind)
  {
  }

  /** `ErrorIs` is an equivalence relation that ignores messages. */
  lemma ErrorIsEquivalence(a: Error, b: Error, c: Error, m: string, n: string)
    ensures ErrorIs(a, a)
    ensures ErrorIs(a, b) ==> ErrorIs(b, a)
    ensures ErrorIs(a, b) && ErrorIs(b, c) ==> ErrorIs(a, c)
    ensures ErrorIs(a, b) <==> ErrorIs(Error(a.kind, m), Error(b.kind, n))
  {
  }
}

=== FILE: metadata.dfy ===
/** The metadata store of base/pg.go over a table held as a sequence of rows
    in scan order. Each database round trip takes failure-injection inputs in
    place of the driver. */
module MetadataStore {
  import opened Results
  import opened Strings
  import Errors

  /** One row of the metadata table: `(uuid, fileName)`, in column order. */
  datatype Row = Row(uuid: string, fileName: string)

  /** Go's zero `Row{}`. */
  const EmptyRow := Row("", "")

  /** The column a lookup or delete filters on, in place of a raw SQL fragment. */
  datatype Key = UuidKey | FileNameKey

  predicate Matches(r: Row, key: Key, value: string)
  {
    match key
    case UuidKey => r.uuid == value
    case FileNameKey => r.fileName == value
  }

  /** What a store call returns as `error`: a raw driver error, or one of the
      typed errors of the taxonomy. */
  datatype DbError = Driver(text: string) | App(err: Errors.Error)

  /** `err.Error()` of a store error. */
  function ErrorText(e: DbError): string
  {
    match e
    case Driver(t) => t
    case App(err) => Errors.Render(err)
  }

  /** A scan failure on the `index`-th row the query returns. */
  datatype ScanFault = ScanOk | ScanFailsAt(index: nat, text: string)

  /** Faults of a SELECT: the query itself, a row scan, the final `rows.Err()`. */
  datatype QueryIo = QueryIo(query: Fault, scan: ScanFault, iteration: Fault)

  /** Faults of an INSERT or DELETE: the statement, then `RowsAffected()`. */
  datatype ExecIo = ExecIo(exec: Fault, rowsAffected: Fault)

  const QueryOk := QueryIo(Succeeds, ScanOk, Succeeds)
  const ExecOk := ExecIo(Succeeds, Succeeds)

  /** The table after a statement and the error the call returns. */
  datatype Update = Update(rows: seq<Row>, err: Option<DbError>)

  //----------------------------------------------------------------------
  // Table contents
  //----------------------------------------------------------------------

  /** The rows a `WHERE key = value` filter returns, in scan order. */
  function Select(rows: seq<Row>, key: Key, value: string): (hits: seq<Row>)
    ensures |hits| <= |rows|
    ensures forall r :: r in hits <==> r in rows && Matches(r, key, value)
  {
    if |rows| == 0 then []
    else
      var last := rows[|rows| - 1];
      Select(rows[..|rows| - 1], key, value) + (if Matches(last, key, value) then [last] else [])
  }

  /** The rows a `DELETE ... WHERE key = value` leaves, in scan order. */
  function Reject(rows: seq<Row>, key: Key, value: string): (kept: seq<Row>)
    ensures forall r :: r in kept <==> r in rows && !Matches(r, key, value)
    ensures |kept| + |Select(rows, key, value)| == |rows|
  {
    if |rows| == 0 then []
    else
      var last := rows[|rows| - 1];
      Reject(rows[..|rows| - 1], key, value) + (if Matches(last, key, value) then [] else [last])
  }

  predicate HasUuid(rows: seq<Row>, id: string)
  {
    exists i :: 0 <= i < |rows| && rows[i].uuid == id
  }

  /** The PRIMARY KEY constraint on `uuid`. */
  predicate UniqueUuids(rows: seq<Row>)
  {
    forall i, j :: 0 <= i < j < |rows| ==> rows[i].uuid != rows[j].uuid
  }

  /** The text the database reports when an INSERT repeats a uuid. */
  const DuplicateKeyText := "pq: duplicate key value violates unique constraint \"meta_pkey\""

  //----------------------------------------------------------------------
  // Operations
  //----------------------------------------------------------------------

  /** `InsertMetadata`: appends the row in (uuid, fileName) order unless the
      statement fails or the uuid is already present. A failing
      `RowsAffected()` is reported although the row was written. */
  function InsertMetadata(rows: seq<Row>, row: Row, io: ExecIo): (u: Update)
    ensures u.rows == rows || u.rows == rows + [row]
    ensures u.err.None? <==> io == ExecOk && !HasUuid(rows, row.uuid)
    ensures u.err.None? ==> u.rows == rows + [row]
    ensures io.exec.Fails? || HasUuid(rows, row.uuid) ==> u.rows == rows && u.err.Some? && u.err.value.Driver?
    ensures io.exec.Succeeds? && !HasUuid(rows, row.uuid) ==> u.rows == rows + [row]
    ensures io.exec.Succeeds? && io.rowsAffected.Fails? && !HasUuid(rows, row.uuid)
            ==> u.err == Some(Driver(io.rowsAffected.text))
    ensures UniqueUuids(rows) ==> UniqueUuids(u.rows)
  {
    if io.exec.Fails? then Update(rows, Some(Driver(io.exec.text)))
    else if HasUuid(rows, row.uuid) then Update(rows, Some(Driver(DuplicateKeyText)))
    else
      var written := rows + [row];
      if io.rowsAffected.Fails? then Update(written, Some(Driver(io.rowsAffected.text)))
      else Update(written, None)
  }

  /** `RetrieveMetadata`: scans every matching row into the same variable, so
      the last match in scan order wins; a result equal to the zero row is
      reported as NotFound. Any query, scan or iteration error is returned. */
  function RetrieveMetadata(rows: seq<Row>, key: Key, value: string, io: QueryIo): (r: Result<Row, DbError>)
    ensures r.Success? ==> r.value in rows && Matches(r.value, key, value) && r.value != EmptyRow
    ensures r.Success? ==> io.query.Succeeds? && io.iteration.Succeeds?
    ensures io.query.Fails? ==> r == Failure(Driver(io.query.text))
    ensures io.query.Succeeds? && io.scan.ScanFailsAt? && io.scan.index < |Select(rows, key, value)|
            ==> r == Failure(Driver(io.scan.text))
  {
    if io.query.Fails? then Failure(Driver(io.query.text))
    else
      var hits := Select(rows, key, value);
      if io.scan.ScanFailsAt? && io.scan.index < |hits| then Failure(Driver(io.scan.text))
      else if io.iteration.Fails? then Failure(Driver(io.iteration.text))
      else
        var ret := if |hits| == 0 then EmptyRow else hits[|hits| - 1];
        if ret == EmptyRow then Failure(App(Errors.Error(Errors.NotFound, "")))
        else Success(ret)
  }

  /** The message of a DELETE that removed more than one row. */
  function AffectedText(n: nat): string
  {
    "DELETE operation affected " + NatToString(n) + " lines."
  }

  /** `DeleteMetadata`: removes every matching row, then classifies how many
      were affected: none is a BadRequest, more than one an InternalServer
      error, exactly one a success. The rows are gone in every case where
      the statement itself ran. */
  function DeleteMetadata(rows: seq<Row>, key: Key, value: string, io: ExecIo): (u: Update)
    ensures io.exec.Fails? ==> u.rows == rows && u.err == Some(Driver(io.exec.text))
    ensures io.exec.Succeeds? ==> u.rows == Reject(rows, key, value)
    ensures u.err.None? <==> io == ExecOk && |rows| - |u.rows| == 1
    ensures io == ExecOk && |u.rows| == |rows|
            ==> u.err == Some(App(Errors.Error(Errors.BadRequest, "file " + value + "does not exist.")))
    ensures io == ExecOk && |rows| - |u.rows| > 1
            ==> u.err.Some? && u.err.value.App? && u.err.value.err.kind == Errors.InternalServer
    ensures io.exec.Succeeds? && io.rowsAffected.Fails?
            ==> u.err == Some(App(Errors.Error(Errors.InternalServer, io.rowsAffected.text)))
  {
    if io.exec.Fails? then Update(rows, Some(Driver(io.exec.text)))
    else
      var kept := Reject(rows, key, value);
      var count := |rows| - |kept|;
      if io.rowsAffected.Fails? then
        Update(kept, Some(App(Errors.Error(Errors.InternalServer, io.rowsAffected.text))))
      else if count > 1 then
        Update(kept, Some(App(Errors.Error(Errors.InternalServer, AffectedText(count)))))
      else if count == 0 then
        Update(kept, Some(App(Errors.Error(Errors.BadRequest, "file " + value + "does not exist."))))
      else Update(kept, None)
  }

  /** The rows `LIMIT limit OFFSET offset` selects: the slice of the table
      that starts at `min(offset, |rows|)` and holds at most `limit` rows. */
  function Page(rows: seq<Row>, limit: nat, offset: nat): seq<Row>
  {
    var start := if offset < |rows| then offset else |rows|;
    var end := if offset + limit < |rows| then offset + limit else |rows|;
    rows[start..end]
  }

  /** Whether a paged scan hits a failing query, scan or iteration. */
  predicate PagedScanFails(rows: seq<Row>, limit: nat, offset: nat, io: QueryIo)
  {
    || io.query.Fails?
    || (io.scan.ScanFailsAt? && io.scan.index < |Page(rows, limit, offset)|)
    || io.iteration.Fails?
  }

  /** `ListAllPaged`: the engine walks the table, skips `offset` rows and
      hands at most `limit` rows to the scan loop, which appends each one.
      Any error yields an empty slice, never a partial page. */
  method ListAllPaged(rows: seq<Row>, limit: nat, offset: nat, io: QueryIo)
    returns (page: seq<Row>, err: Option<DbError>)
    ensures err.Some? ==> page == [] && err.value.Driver?
    ensures err.None? ==> page == Page(rows, limit, offset)
    ensures err.Some? <==> PagedScanFails(rows, limit, offset, io)
  {
    if io.query.Fails? {
      return [], Some(Driver(io.query.text));
    }
    page := [];
    var i := 0;
    while i < |rows| && |page| < limit
      invariant 0 <= i <= |rows|
      invariant i <= offset ==> page == []
      invariant offset < i ==> page == rows[offset..i] && i <= offset + limit
      invariant !(io.scan.ScanFailsAt? && io.scan.index < |page|)
    {
      if i >= offset {
        if io.scan.ScanFailsAt? && io.scan.index == |page| {
          assert |Page(rows, limit, offset)| > |page|;
          return [], Some(Driver(io.scan.text));
        }
        page := page + [rows[i]];
      }
      i := i + 1;
    }
    assert page == Page(rows, limit, offset);
    if io.iteration.Fails? {
      return [], Some(Driver(io.iteration.text));
    }
    return page, None;
  }

  //----------------------------------------------------------------------
  // Properties
  //----------------------------------------------------------------------

  /** The last match of the filter is the last row `Select` returns. */
  lemma {:induction false} SelectLast(rows: seq<Row>, key: Key, value: string, i: nat)
    requires i < |rows| && Matches(rows[i], key, value)
    requires forall j :: i < j < |rows| ==> !Matches(rows[j], key, value)
    ensures |Select(rows, key, value)| > 0
    ensures Select(rows, key, value)[|Select(rows, key, value)| - 1] == rows[i]
    decreases |rows|
  {
    var init := rows[..|rows| - 1];
    var last := rows[|rows| - 1];
    if i < |rows| - 1 {
      assert forall j :: i < j < |init| ==> init[j] == rows[j];
      SelectLast(init, key, value, i);
      assert !Matches(last, key, value);
      assert Select(rows, key, value) == Select(init, key, value);
    } else {
      assert Select(rows, key, value) == Select(init, key, value) + [last];
    }
  }

  /** An insert followed by a lookup of the same uuid finds the row. */
  lemma InsertThenRetrieve(rows: seq<Row>, row: Row)
    requires row != EmptyRow
    requires InsertMetadata(rows, row, ExecOk).err.None?
    ensures RetrieveMetadata(InsertMetadata(rows, row, ExecOk).rows, UuidKey, row.uuid, QueryOk) == Success(row)
  {
  }

  /** After a successful insert exactly one row equals the inserted one. */
  lemma InsertAddsExactlyOne(rows: seq<Row>, row: Row)
    requires InsertMetadata(rows, row, ExecOk).err.None?
    ensures |Select(Select(InsertMetadata(rows, row, ExecOk).rows, UuidKey, row.uuid), FileNameKey, row.fileName)| == 1
  {
    var after := rows + [row];
    NoneMatch(rows, UuidKey, row.uuid);
    assert after[..|after| - 1] == rows;
    assert Select(after, UuidKey, row.uuid) == [row];
  }

  lemma {:induction false} NoneMatch(rows: seq<Row>, key: Key, value: string)
    requires forall j :: 0 <= j < |rows| ==> !Matches(rows[j], key, value)
    ensures Select(rows, key, value) == []
    decreases |rows|
  {
    if |rows| > 0 {
      NoneMatch(rows[..|rows| - 1], key, value);
    }
  }

  /** A lookup with no matching row reports the NotFound kind. */
  lemma RetrieveMissing(rows: seq<Row>, key: Key, value: string)
    requires forall j :: 0 <= j < |rows| ==> !Matches(rows[j], key, value)
    ensures RetrieveMetadata(rows, key, value, QueryOk) == Failure(App(Errors.Error(Errors.NotFound, "")))
  {
  }

  /** With several matches the lookup returns the last one in scan order;
      a last match equal to the zero row is reported as NotFound. */
  lemma RetrieveLastMatch(rows: seq<Row>, key: Key, value: string, i: nat)
    requires i < |rows| && Matches(rows[i], key, value)
    requires forall j :: i < j < |rows| ==> !Matches(rows[j], key, value)
    ensures rows[i] != EmptyRow ==> RetrieveMetadata(rows, key, value, QueryOk) == Success(rows[i])
    ensures rows[i] == EmptyRow
            ==> RetrieveMetadata(rows, key, value, QueryOk) == Failure(App(Errors.Error(Errors.NotFound, "")))
  {
    SelectLast(rows, key, value, i);
  }

  /** In a table whose uuids are unique, a lookup by uuid matches at most once. */
  lemma {:induction false} UniqueSelect(rows: seq<Row>, id: string)
    requires UniqueUuids(rows)
    ensures |Select(rows, UuidKey, id)| <= 1
    decreases |rows|
  {
    if |rows| > 0 {
      var init := rows[..|rows| - 1];
      assert UniqueUuids(init);
      UniqueSelect(init, id);
      if rows[|rows| - 1].uuid == id {
        forall j | 0 <= j < |init| ensures !Matches(init[j], UuidKey, id) {
          assert rows[j].uuid != rows[|rows| - 1].uuid;
        }
        NoneMatch(init, UuidKey, id);
      }
    }
  }

  /** Deleting a present uuid from a table with unique uuids succeeds, removes
      that one row and leaves nothing for a later lookup to find. */
  lemma DeleteByUuid(rows: seq<Row>, id: string)
    requires UniqueUuids(rows) && HasUuid(rows, id)
    ensures DeleteMetadata(rows, UuidKey, id, ExecOk).err.None?
    ensures |DeleteMetadata(rows, UuidKey, id, ExecOk).rows| == |rows| - 1
    ensures RetrieveMetadata(DeleteMetadata(rows, UuidKey, id, ExecOk).rows, UuidKey, id, QueryOk)
            == Failure(App(Errors.Error(Errors.NotFound, "")))
  {
    UniqueSelect(rows, id);
    var k :| 0 <= k < |rows| && rows[k].uuid == id;
    assert rows[k] in Select(rows, UuidKey, id);
    var kept := Reject(rows, UuidKey, id);
    forall j | 0 <= j < |kept| ensures !Matches(kept[j], UuidKey, id) {
      assert kept[j] in kept;
    }
    RetrieveMissing(kept, UuidKey, id);
  }

  /** A page never holds more than `limit` rows; `limit` 0 gives none. */
  lemma PageBounds(rows: seq<Row>, limit: nat, offset: nat)
    ensures |Page(rows, limit, offset)| <= limit
    ensures limit == 0 ==> Page(rows, limit, offset) == []
    ensures offset >= |rows| ==> Page(rows, limit, offset) == []
    ensures offset + limit <= |rows| ==> |Page(rows, limit, offset)| == limit
  {
  }

  /** Pages of `size` rows taken at offsets `offset`, `offset + size`, ...
      until the table is exhausted. */
  function PagesFrom(rows: seq<Row>, size: nat, offset: nat): seq<Row>
    requires size > 0
    decreases |rows| - offset
  {
    if offset >= |rows| then []
    else Page(rows, size, offset) + PagesFrom(rows, size, offset + size)
  }

  lemma {:induction false} PagesFromSuffix(rows: seq<Row>, size: nat, offset: nat)
    requires size > 0 && offset <= |rows|
    ensures PagesFrom(rows, size, offset) == rows[offset..]
    decreases |rows| - offset
  {
    if offset < |rows| {
      if offset + size < |rows| {
        PagesFromSuffix(rows, size, offset + size);
        assert rows[offset..] == rows[offset..offset + size] + rows[offset + size..];
      } else {
        assert PagesFrom(rows, size, offset + size) == [];
      }
    }
  }

  /** Concatenating the pages of any positive size, from offset 0 in steps of
      that size, reproduces the whole table with no gap and no duplicate. */
  lemma PagesCoverTable(rows: seq<Row>, size: nat)
    requires size > 0
    ensures PagesFrom(rows, size, 0) == rows
  {
    PagesFromSuffix(rows, size, 0);
  }
}

=== FILE: results.dfy ===
/** Failure-carrying wrappers shared by every module of the model. */
module Results {

  /** An optional value (Go's nil-or-value). */
  datatype Option<+T> = None | Some(value: T)

  /** A value or an error, standing in for Go's `(T, error)` return pairs. */
  datatype Result<+T, +E> = Success(value: T) | Failure(error: E)

  /** A failure-injection input: whether an external call (a syscall, a
      database round trip) succeeds, and if not, the text of its error. */
  datatype Fault = Succeeds | Fails(text: string)
}

=== FILE: schema.dfy ===
/** DDL rendering: the column type of base/types.go and the table list,
    `Init` and `GetTableFromLabel` of base/pg.go. */
module Schema {
  import opened Results
  import opened Strings

  datatype Column = Column(name: string, dataType: string, primaryKey: bool, notNull: bool)

  datatype Table = Table(name: string, columns: seq<Column>, labels: map<string, string>)

  const PrimaryKeyClause := " PRIMARY KEY"
  const NotNullClause := " NOT NULL"

  /** `newColumn`: stores its arguments in the matching fields. */
  function NewColumn(name: string, dataType: string, primaryKey: bool, notNull: bool): (c: Column)
    ensures c.name == name && c.dataType == dataType
    ensures c.primaryKey == primaryKey && c.notNull == notNull
  {
    Column(name, dataType, primaryKey, notNull)
  }

  /** The part of a column definition that is always present. */
  function Head(c: Column): string
  {
    c.name + " " + c.dataType
  }

  /** `column.toString`: the head, then the optional clauses. */
  function ToString(c: Column): (r: string)
    ensures IsPrefix(Head(c), r)
    ensures |r| == |Head(c)| + (if c.primaryKey then |PrimaryKeyClause| else 0) + (if c.notNull then |NotNullClause| else 0)
  {
    var withKey := if c.primaryKey then Head(c) + PrimaryKeyClause else Head(c);
    if c.notNull then withKey + NotNullClause else withKey
  }

  /** A column's rendering starts with its head. After the head it starts
      with " PRIMARY KEY" exactly when the column is a key and ends with
      " NOT NULL" exactly when it is not null; with both, the key clause
      comes first. */
  lemma ToStringClauses(c: Column)
    ensures IsPrefix(Head(c), ToString(c))
    ensures c.primaryKey <==> IsPrefix(PrimaryKeyClause, ToString(c)[|Head(c)|..])
    ensures c.notNull <==> IsSuffix(NotNullClause, ToString(c)[|Head(c)|..])
    ensures c.primaryKey && c.notNull ==> ToString(c)[|Head(c)|..] == PrimaryKeyClause + NotNullClause
  {
    var r := ToString(c);
    var tail := r[|Head(c)|..];
    if c.primaryKey && c.notNull {
      assert r == Head(c) + PrimaryKeyClause + NotNullClause;
      assert tail == PrimaryKeyClause + NotNullClause;
    } else if c.primaryKey {
      assert tail == PrimaryKeyClause;
    } else if c.notNull {
      assert tail == NotNullClause;
    } else {
      assert tail == "";
    }
  }

  /** A column's flags can be read back from its rendering. */
  lemma ColumnFlagsRecoverable(a: Column, b: Column)
    requires a.name == b.name && a.dataType == b.dataType
    requires ToString(a) == ToString(b)
    ensures a == b
  {
  }

  function ColumnStrings(columns: seq<Column>): (r: seq<string>)
    ensures |r| == |columns|
    ensures forall i :: 0 <= i < |columns| ==> r[i] == ToString(columns[i])
  {
    seq(|columns|, i requires 0 <= i < |columns| => ToString(columns[i]))
  }

  /** The statement `Init` issues for one table. */
  function CreateStatement(t: Table): string
  {
    "CREATE TABLE IF NOT EXISTS " + t.name + " (" + Join(ColumnStrings(t.columns), ",") + ")"
  }

  /** The loop of `Init` that builds one table's statement: a comma before
      every column but the first. */
  method BuildCreateStatement(t: Table) returns (s: string)
    ensures s == CreateStatement(t)
  {
    var strings := ColumnStrings(t.columns);
    var body := "";
    var i := 0;
    while i < |t.columns|
      invariant 0 <= i <= |t.columns|
      invariant body == Join(strings[..i], ",")
    {
      if i != 0 {
        body := body + ",";
      }
      body := body + ToString(t.columns[i]);
      assert strings[..i + 1][..i] == strings[..i];
      i := i + 1;
    }
    assert strings[..i] == strings;
    s := "CREATE TABLE IF NOT EXISTS " + t.name + " (" + body + ")";
  }

  /** The CREATE statements of a table list, in order. */
  function CreateStatements(tables: seq<Table>): (r: seq<string>)
    ensures |r| == |tables|
  {
    seq(|tables|, i requires 0 <= i < |tables| => CreateStatement(tables[i]))
  }

  /** `Init`: one CREATE statement per table, in order, stopping at the first
      whose execution fails. `failures` maps a table's position to the error
      its execution reports. Returns the statements issued and the error. */
  method Init(tables: seq<Table>, failures: map<nat, string>) returns (issued: seq<string>, err: Option<string>)
    ensures |issued| <= |tables|
    ensures issued == CreateStatements(tables)[..|issued|]
    ensures forall i: nat :: i < |issued| - 1 ==> i !in failures
    ensures err.None? ==> |issued| == |tables| && forall i: nat :: i < |tables| ==> i !in failures
    ensures err.Some? ==> |issued| > 0 && (|issued| - 1) as nat in failures
                          && err.value == failures[(|issued| - 1) as nat]
  {
    ghost var all := CreateStatements(tables);
    issued := [];
    var i: nat := 0;
    while i < |tables|
      invariant i <= |tables|
      invariant issued == all[..i]
      invariant forall j: nat :: j < i ==> j !in failures
    {
      var statement := BuildCreateStatement(tables[i]);
      assert all[..i + 1] == all[..i] + [statement];
      issued := issued + [statement];
      if i in failures {
        return issued, Some(failures[i]);
      }
      i := i + 1;
    }
    return issued, None;
  }

  predicate HoldsMetadata(t: Table)
  {
    "content" in t.labels && t.labels["content"] == "metadata"
  }

  /** `GetTableFromLabel`: its argument is ignored; the result is the name of
      the last table labelled as holding metadata, or "" when there is none. */
  function GetTableFromLabel(tables: seq<Table>, wanted: string): (name: string)
    ensures name == "" || exists i :: 0 <= i < |tables| && tables[i].name == name && HoldsMetadata(tables[i])
    ensures forall i :: 0 <= i < |tables| && HoldsMetadata(tables[i])
                        && (forall j :: i < j < |tables| ==> !HoldsMetadata(tables[j]))
                        ==> name == tables[i].name
    ensures (forall i :: 0 <= i < |tables| ==> !HoldsMetadata(tables[i])) ==> name == ""
  {
    if |tables| == 0 then ""
    else if HoldsMetadata(tables[|tables| - 1]) then tables[|tables| - 1].name
    else GetTableFromLabel(tables[..|tables| - 1], wanted)
  }

  /** The database structure declared in `NewSqlDatabase`. */
  const MetaColumns := [NewColumn("uuid", "uuid", true, false),
                         NewColumn("fileName", "varchar(255)", false, true)]
  const MetaTable := Table("meta", MetaColumns, map["content" := "metadata"])
  const BucketTable := Table("bucket",
                             [NewColumn("name", "varchar(255)", true, false),
                              NewColumn("owner", "varchar(255)", false, true)],
                             map["content" := "bucket"])
  const DatabaseTables := [MetaTable, BucketTable]

  /** The metadata columns render as a uuid key and a non-null name. */
  lemma MetaColumnsRender()
    ensures ToString(MetaTable.columns[0]) == "uuid uuid PRIMARY KEY"
    ensures ToString(MetaTable.columns[1]) == "fileName varchar(255) NOT NULL"
  {
    var key := Column("uuid", "uuid", true, false);
    var name := Column("fileName", "varchar(255)", false, true);
    assert MetaColumns == [key, name];
    calc {
      ToString(key);
      Head(key) + PrimaryKeyClause;
      "uuid uuid" + " PRIMARY KEY";
    }
    calc {
      ToString(name);
      Head(name) + NotNullClause;
      "fileName varchar(255)" + " NOT NULL";
    }
  }

  /** The statement `Init` issues for the metadata table. */
  lemma MetaCreateStatement()
    ensures CreateStatement(MetaTable)
            == "CREATE TABLE IF NOT EXISTS meta (" + "uuid uuid PRIMARY KEY" + ","
               + "fileName varchar(255) NOT NULL" + ")"
  {
    MetaColumnsRender();
    var strings := ColumnStrings(MetaTable.columns);
    assert strings == [strings[0], strings[1]];
    JoinPair(strings[0], strings[1], ",");
  }

  lemma JoinPair(a: string, b: string, sep: string)
    ensures Join([a, b], sep) == a + sep + b
  {
    assert [a, b][..1] == [a];
  }

  /** Whatever label is asked for, the declared structure answers "meta". */
  lemma MetadataTableIsMeta(wanted: string)
    ensures GetTableFromLabel(DatabaseTables, wanted) == "meta"
  {
  }
}

=== FILE: storage.dfy ===
/** The storage coordinator of pkg/storage/storage.go: `WriteFile`, `GetFile`
    and `DeleteFile` as transitions on a blob store (one byte sequence per
    path `storageFolder/uuid`, keyed here by the uuid) and the metadata rows.
    The fresh uuid is an input, and every filesystem or database call takes a
    failure-injection input. */
module Storage {
  import opened Results
  import Errors
  import MetadataStore
  import opened Strings

  newtype byte = b: int | 0 <= b < 256

  type Bytes = seq<byte>

  datatype State = State(blobs: map<string, Bytes>, rows: seq<MetadataStore.Row>)

  /** The state after a call and what the call returns. */
  datatype Step<T> = Step(state: State, result: Result<T, Errors.Error>)

  /** What `os.Stat` reports for a blob path. */
  datatype Stat = Exists | NotExist | StatFailed(text: string)

  /** `os.Stat`: an injected fault (a permission error, say) overrides the
      answer the store would give. */
  function StatBlob(blobs: map<string, Bytes>, id: string, fault: Fault): (st: Stat)
    ensures st.NotExist? <==> id !in blobs && fault.Succeeds?
    ensures st.Exists? <==> id in blobs && fault.Succeeds?
  {
    if fault.Fails? then StatFailed(fault.text)
    else if id in blobs then Exists
    else NotExist
  }

  /** The text of an `*os.PathError` for a missing file. */
  function NoSuchFile(op: string, id: string): string
  {
    op + " " + id + ": no such file or directory"
  }

  /** A `*util.ResponseError` with the given status code and text. */
  function Status(code: int, text: string): Errors.Error
  {
    Errors.Error(Errors.Response(code), text)
  }

  const AlreadyExists := "file already exists"

  /** `io.Copy` either copies everything or fails after `written` bytes. */
  datatype CopyFault = CopyOk | CopyFails(written: nat, text: string)

  datatype WriteIo = WriteIo(stat: Fault, create: Fault, copy: CopyFault, insert: MetadataStore.ExecIo)
  datatype ReadIo = ReadIo(stat: Fault, read: Fault)
  datatype RemoveIo = RemoveIo(stat: Fault, remove: Fault)

  const WriteOk := WriteIo(Succeeds, Succeeds, CopyOk, MetadataStore.ExecOk)
  const ReadOk := ReadIo(Succeeds, Succeeds)
  const RemoveOk := RemoveIo(Succeeds, Succeeds)

  /** The status code of a failed call, 0 on success. */
  function Code<T>(s: Step<T>): int
  {
    if s.result.Failure? && s.result.error.kind.Response? then s.result.error.kind.statusCode else 0
  }

  /** Every coordinator error is a `*util.ResponseError`. */
  predicate Classified<T>(s: Step<T>)
  {
    s.result.Failure? ==> s.result.error.kind.Response?
  }

  /** `WriteFile`. Only a stat answering "does not exist" leads to the write;
      any other answer, including a stat error, is a 409. A failed copy
      leaves the partly written blob behind and a failed insert leaves the
      whole blob behind; both are 500s. On success the id is returned, the
      blob holds the content and one row (id, name) has been appended. */
  function WriteFile(s: State, id: string, name: string, content: Bytes, io: WriteIo): (out: Step<string>)
    ensures Classified(out)
    ensures out.result.Success? ==> out.result.value == id
    ensures out.result.Success? ==> out.state.blobs == s.blobs[id := content]
    ensures out.result.Success? ==> out.state.rows == s.rows + [MetadataStore.Row(id, name)]
    ensures out.result.Failure? ==> Code(out) == 409 || Code(out) == 500
    ensures out.state.blobs.Keys <= s.blobs.Keys + {id}
    ensures forall k :: k in s.blobs && k != id ==> k in out.state.blobs && out.state.blobs[k] == s.blobs[k]
  {
    if !StatBlob(s.blobs, id, io.stat).NotExist? then Step(s, Failure(Status(409, AlreadyExists)))
    else if io.create.Fails? then Step(s, Failure(Status(500, io.create.text)))
    else if io.copy.CopyFails? then
      var part := if io.copy.written < |content| then content[..io.copy.written] else content;
      Step(State(s.blobs[id := part], s.rows), Failure(Status(500, io.copy.text)))
    else
      var blobs := s.blobs[id := content];
      var u := MetadataStore.InsertMetadata(s.rows, MetadataStore.Row(id, name), io.insert);
      if u.err.Some? then Step(State(blobs, u.rows), Failure(Status(500, MetadataStore.ErrorText(u.err.value))))
      else Step(State(blobs, u.rows), Success(id))
  }

  /** `GetFile`. Consults only the blob store: a stat answering "does not
      exist" is a 404; otherwise the file is read, and a failing read is a
      500. No call changes the state. */
  function GetFile(s: State, id: string, io: ReadIo): (out: Step<Bytes>)
    ensures out.state == s
    ensures Classified(out)
    ensures out.result.Success? ==> id in s.blobs && out.result.value == s.blobs[id]
    ensures out.result.Failure? ==> Code(out) == 404 || Code(out) == 500
  {
    if StatBlob(s.blobs, id, io.stat).NotExist? then Step(s, Failure(Status(404, NoSuchFile("stat", id))))
    else if id !in s.blobs then Step(s, Failure(Status(500, NoSuchFile("open", id))))
    else if io.read.Fails? then Step(s, Failure(Status(500, io.read.text)))
    else Step(s, Success(s.blobs[id]))
  }

  /** `DeleteFile`. A stat answering "does not exist" is a 404; otherwise the
      blob is removed, and a failing removal is a 500 that leaves it in place.
      The metadata rows are never touched. */
  function DeleteFile(s: State, id: string, io: RemoveIo): (out: Step<()>)
    ensures out.state.rows == s.rows
    ensures Classified(out)
    ensures out.result.Success? ==> id in s.blobs && out.state.blobs == s.blobs - {id}
    ensures out.result.Failure? ==> out.state == s && (Code(out) == 404 || Code(out) == 500)
  {
    if StatBlob(s.blobs, id, io.stat).NotExist? then Step(s, Failure(Status(404, NoSuchFile("stat", id))))
    else if id !in s.blobs then Step(s, Failure(Status(500, NoSuchFile("remove", id))))
    else if io.remove.Fails? then Step(s, Failure(Status(500, io.remove.text)))
    else Step(State(s.blobs - {id}, s.rows), Success(()))
  }

  //----------------------------------------------------------------------
  // Properties
  //----------------------------------------------------------------------

  /** A write succeeds exactly when nothing is at the fresh path, every call
      succeeds and the uuid is not already a row (the PRIMARY KEY). */
  lemma WriteFileSucceeds(s: State, id: string, name: string, content: Bytes, io: WriteIo)
    ensures WriteFile(s, id, name, content, io).result.Success?
            <==> id !in s.blobs && io == WriteOk && !MetadataStore.HasUuid(s.rows, id)
  {
  }

  /** A blob already at the path, or a stat that fails, gives a 409 "file
      already exists" with no id, and neither store changes. */
  lemma WriteFileConflict(s: State, id: string, name: string, content: Bytes, io: WriteIo)
    requires id in s.blobs || io.stat.Fails?
    ensures WriteFile(s, id, name, content, io) == Step(s, Failure(Status(409, AlreadyExists)))
  {
  }

  /** A failing create or copy is a 500 and adds no metadata row; a failing
      copy leaves a prefix of the content at the path. */
  lemma WriteFileBlobFailure(s: State, id: string, name: string, content: Bytes, io: WriteIo)
    requires id !in s.blobs && io.stat.Succeeds?
    requires io.create.Fails? || io.copy.CopyFails?
    ensures Code(WriteFile(s, id, name, content, io)) == 500
    ensures WriteFile(s, id, name, content, io).state.rows == s.rows
    ensures io.create.Fails? ==> WriteFile(s, id, name, content, io).state == s
    ensures io.create.Succeeds? ==> (id in WriteFile(s, id, name, content, io).state.blobs
                                     && IsPrefix(WriteFile(s, id, name, content, io).state.blobs[id], content))
  {
  }

  /** A failing insert statement is a 500 that leaves the whole blob written
      but no row for it: an orphan blob. */
  lemma WriteFileOrphanBlob(s: State, id: string, name: string, content: Bytes, io: WriteIo)
    requires id !in s.blobs && io.stat.Succeeds? && io.create.Succeeds? && io.copy.CopyOk?
    requires io.insert.exec.Fails?
    ensures var out := WriteFile(s, id, name, content, io);
            && Code(out) == 500
            && out.state == State(s.blobs[id := content], s.rows)
  {
  }

  /** An INSERT that ran but whose `RowsAffected()` fails is a 500 although
      the write fully happened: the blob holds the content and the row is
      in the table, yet the caller never receives the id. */
  lemma WriteFileUnconfirmedInsert(s: State, id: string, name: string, content: Bytes, io: WriteIo)
    requires id !in s.blobs && io.stat.Succeeds? && io.create.Succeeds? && io.copy.CopyOk?
    requires io.insert.exec.Succeeds? && io.insert.rowsAffected.Fails?
    requires !MetadataStore.HasUuid(s.rows, id)
    ensures var out := WriteFile(s, id, name, content, io);
            && Code(out) == 500
            && out.state == State(s.blobs[id := content], s.rows + [MetadataStore.Row(id, name)])
  {
  }

  /** Round trip: after a successful write, reading the returned id yields
      the bytes written and changes nothing. */
  lemma WriteThenGet(s: State, id: string, name: string, content: Bytes, wio: WriteIo, rio: ReadIo)
    requires WriteFile(s, id, name, content, wio).result.Success?
    requires rio.read.Succeeds?
    ensures var w := WriteFile(s, id, name, content, wio);
            GetFile(w.state, w.result.value, rio) == Step(w.state, Success(content))
  {
  }

  /** With no blob at the path a read is a 404 with no bytes, whatever the
      metadata rows hold. */
  lemma GetFileMissing(s: State, id: string, rows: seq<MetadataStore.Row>, io: ReadIo)
    requires id !in s.blobs && io.stat.Succeeds?
    ensures GetFile(s, id, io).result == Failure(Status(404, NoSuchFile("stat", id)))
    ensures GetFile(State(s.blobs, rows), id, io).result == GetFile(s, id, io).result
  {
  }

  /** A read depends on the blob store only. */
  lemma GetFileIgnoresRows(blobs: map<string, Bytes>, rows1: seq<MetadataStore.Row>,
                           rows2: seq<MetadataStore.Row>, id: string, io: ReadIo)
    ensures GetFile(State(blobs, rows1), id, io).result == GetFile(State(blobs, rows2), id, io).result
  {
  }

  /** With no blob a delete is a 404; a failing removal is a 500 that leaves
      the blob in place. */
  lemma DeleteFileFailures(s: State, id: string, io: RemoveIo)
    ensures id !in s.blobs && io.stat.Succeeds?
            ==> DeleteFile(s, id, io) == Step(s, Failure(Status(404, NoSuchFile("stat", id))))
    ensures id in s.blobs && io.remove.Fails?
            ==> DeleteFile(s, id, io) == Step(s, Failure(Status(500, io.remove.text)))
    ensures DeleteFile(s, id, io).result.Success? <==> id in s.blobs && io.remove.Succeeds?
  {
  }

  /** A successful delete removes only that blob, keeps every row, and a
      later read of the id is a 404. */
  lemma DeleteThenGet(s: State, id: string, dio: RemoveIo, rio: ReadIo)
    requires DeleteFile(s, id, dio).result.Success?
    requires rio.stat.Succeeds?
    ensures var d := DeleteFile(s, id, dio);
            && d.state == State(s.blobs - {id}, s.rows)
            && GetFile(d.state, id, rio).result == Failure(Status(404, NoSuchFile("stat", id)))
  {
  }

  /** An id is write-once: writing it again after a success is a 409. */
  lemma WriteOnce(s: State, id: string, name: string, content: Bytes, io: WriteIo,
                  name2: string, content2: Bytes, io2: WriteIo)
    requires WriteFile(s, id, name, content, io).result.Success?
    ensures var w := WriteFile(s, id, name, content, io);
            WriteFile(w.state, id, name2, content2, io2) == Step(w.state, Failure(Status(409, AlreadyExists)))
  {
  }

  /** Every blob has a row and every row a blob. */
  predicate Consistent(s: State)
  {
    && (forall id :: id in s.blobs ==> MetadataStore.HasUuid(s.rows, id))
    && (forall i :: 0 <= i < |s.rows| ==> s.rows[i].uuid in s.blobs)
  }

  /** A successful write keeps the two stores in step. */
  lemma WritePreservesConsistency(s: State, id: string, name: string, content: Bytes, io: WriteIo)
    requires Consistent(s)
    requires WriteFile(s, id, name, content, io).result.Success?
    ensures Consistent(WriteFile(s, id, name, content, io).state)
  {
    var t := WriteFile(s, id, name, content, io).state;
    forall k | k in t.blobs ensures MetadataStore.HasUuid(t.rows, k) {
      if k == id {
        assert t.rows[|s.rows|].uuid == id;
      } else {
        var i :| 0 <= i < |s.rows| && s.rows[i].uuid == k;
        assert t.rows[i].uuid == k;
      }
    }
  }

  /** A successful delete of a written file leaves its row without a blob:
      the stores fall out of step. */
  lemma DeleteLeavesOrphanRow(s: State, id: string, io: RemoveIo)
    requires MetadataStore.HasUuid(s.rows, id)
    requires DeleteFile(s, id, io).result.Success?
    ensures !Consistent(DeleteFile(s, id, io).state)
  {
  }

  /** No check on the logical name: two files of the same name written under
      different ids both succeed. */
  lemma SameNameTwice(s: State, id1: string, id2: string, name: string, c1: Bytes, c2: Bytes)
    requires id1 != id2
    requires id1 !in s.blobs && id2 !in s.blobs
    requires !MetadataStore.HasUuid(s.rows, id1) && !MetadataStore.HasUuid(s.rows, id2)
    ensures var w1 := WriteFile(s, id1, name, c1, WriteOk);
            && w1.result == Success(id1)
            && WriteFile(w1.state, id2, name, c2, WriteOk).result == Success(id2)
  {
  }

  /** Two uploads named "a.txt" and a delete of the first: the second upload
      is accepted, the deleted file reads as 404, and both rows remain. */
  lemma SameNameScenario()
    ensures var s0 := State(map[], []);
            var w1 := WriteFile(s0, "u1", "a.txt", [1, 2], WriteOk);
            var w2 := WriteFile(w1.state, "u2", "a.txt", [3], WriteOk);
            var d := DeleteFile(w2.state, "u1", RemoveOk);
            && w1.result == Success("u1")
            && GetFile(w1.state, "u1", ReadOk).result == Success([1, 2])
            && w2.result == Success("u2")
            && d.result.Success?
            && GetFile(d.state, "u1", ReadOk).result.Failure?
            && Code(GetFile(d.state, "u1", ReadOk)) == 404
            && d.state.rows == [MetadataStore.Row("u1", "a.txt"), MetadataStore.Row("u2", "a.txt")]
  {
  }
}

=== FILE: strings.dfy ===
/** String helpers used by the statement builders and error renderers. */
module Strings {

  predicate IsPrefix<T(==)>(p: seq<T>, s: seq<T>) {
    |p| <= |s| && s[..|p|] == p
  }

  predicate IsSuffix<T(==)>(p: seq<T>, s: seq<T>) {
    |p| <= |s| && s[|s| - |p|..] == p
  }

  /** The parts separated by `sep`, as Go's `strings.Join`. Defined from the
      right so that it matches a loop that appends one part at a time. */
  function Join(parts: seq<string>, sep: string): string
  {
    if |parts| == 0 then ""
    else if |parts| == 1 then parts[0]
    else Join(parts[..|parts| - 1], sep) + sep + parts[|parts| - 1]
  }

  function DigitChar(d: nat): char
    requires d < 10
  {
    "0123456789"[d]
  }

  /** Decimal rendering of a natural number, as `fmt.Sprintf("%d", n)`. */
  function NatToString(n: nat): (r: string)
    ensures |r| >= 1
    ensures forall i :: 0 <= i < |r| ==> '0' <= r[i] <= '9'
  {
    if n < 10 then [DigitChar(n)] else NatToString(n / 10) + [DigitChar(n % 10)]
  }
}
